=== FILE: README.md ===
# Model groups, delete confirmation and the API cache of the ML dashboards plugin

This project models three small pieces of logic of the ML-commons dashboards plugin in Dafny:

- **The model-group aggregation** of `ModelGroupService.search`. The search engine runs it as a scripted metric. Here it is a pure fold:
  - the query drops chunk documents;
  - each shard folds its model documents, in order, into a map keyed by model name;
  - the shards' groups are then concatenated.
  
  Modules: `ModelGroupFold` holds the fold; `ModelGroupProofs` holds a reference definition of each group and the theorems that link the fold to it.
- **The delete-confirmation modal**, as a state machine (module `ConfirmDeleteModal`):
  - the state is `visible`, `isDeleting` and the ref with the ids to delete;
  - the events are `show`, cancel, confirm, and the polling hook's `onGiveUp` and `onMaxRetries` callbacks;
  - the confirm handler's delete loop is a method; the polling checker is a function of the pending ids and the search's record total.
- **`APIProvider`**, a lazy memo table with six slots and a `clear` that resets only the `model` slot (module `ApiProvider`). Each new client instance gets a serial number from a counter, so "a new instance" can be told apart from every earlier one.

Behaviour of the code a reader may not expect:

- A group starts from its first document's creation time and version. Its `latestCreatedTime` is therefore the maximum over its documents, even when every time is negative.
- `stages.deployed` / `stages.undeployed` collect the documents' model version strings; `versionIds` collects their document ids.
- `latestVersion` is updated only on a strictly greater time. On a tie, the first document seen keeps it.
- A pending empty list `[]` is truthy in JavaScript. Confirming it issues no delete, raises no error and starts polling. Only an absent id or the empty string throws `NoIdProvideError`.
- The terminal polling callbacks do not clear the pending ids. Only cancel does.
- A failing delete rejects the confirm handler and leaves `isDeleting` set. Nothing resets it until a terminal callback runs.

## Model

| member | source | states |
|---|---|---|
| ModelGroupFold.UnchunkedMembers | server/services/model_group_service.ts:32-39 | The filtered documents are exactly the input documents without a chunk number |
| ModelGroupFold.UnchunkedAppend | server/services/model_group_service.ts:32-39 | Filtering keeps the shard order and every repeated document: filtering two document lists one after the other gives the two filtered lists one after the other |
| ModelGroupFold.FoldShard | server/services/model_group_service.ts:44-81 | After folding a shard: each key is listed once; the listed keys are exactly the map's keys; every group is filed under its own name; and the keys are exactly the model names in the shard |
| ModelGroupFold.MapStepValid | server/services/model_group_service.ts:56-69 | A map-script step keeps every key listed once, in step with the map, and every group filed under its own name; it adds the document's name to the keys |
| ModelGroupFold.ShardGroups | server/services/model_group_service.ts:82-88 | A shard hands on one group per map key, in key order, each being the group stored under that key |
| ModelGroupFold.Reduce | server/services/model_group_service.ts:83-90 | The reduced list has as many groups as all shards together; every group of every shard appears in it; every group in it comes from some shard |
| ModelGroupFold.ReduceConcatenates | server/services/model_group_service.ts:83-90 | The reduced list is the shards' group lists concatenated, shard after shard: group `k` of shard `i` stands at the number of groups of the earlier shards plus `k` |
| ModelGroupProofs.FirstRecordSummarised | server/services/model_group_service.ts:56-80 | The group created for a name's first document holds that document's id, time and version, and its version is in exactly the right stage |
| ModelGroupProofs.AddRecordSummarises | server/services/model_group_service.ts:69-80 | A later document of the same name extends its group to summarise all of the name's documents: its id and version are appended at the end, and the latest time and version become those of the first document with the greatest time |
| ModelGroupProofs.MapStepSummarises | server/services/model_group_service.ts:56-80 | If every group summarises its name's documents so far, then after one more document every group summarises its name's documents including the new one |
| ModelGroupProofs.FoldShardSummarises | server/services/model_group_service.ts:45-81 | The group filed under a name holds the ids of exactly that name's documents, in shard order. Its deployed/undeployed stages hold the versions of the LOADED / not LOADED ones. Its latest time and version are those of the first document with the greatest creation time, with a missing time counting as 0 |
| ModelGroupProofs.MapStepGroups | server/services/model_group_service.ts:56-69 | One step creates a group only for an unseen name, updates only the group of the document's name, and leaves every other group unchanged |
| ModelGroupProofs.DeploymentPartition | server/services/model_group_service.ts:76-80 | Every document is either deployed or not: the two filtered lists add up to the whole list |
| ModelGroupProofs.StagesPartitionVersions | server/services/model_group_service.ts:76-80 | In a group, the deployed and undeployed stages together are exactly as long as versionIds |
| ModelGroupProofs.MapStepAddsOneId | server/services/model_group_service.ts:56-71 | One document adds exactly one id over all of the shard's groups, whether it opens a new group or extends an existing one |
| ModelGroupProofs.ShardIdCount | server/services/model_group_service.ts:69-71 | The versionIds of all the groups of a shard together are exactly as many as the shard's documents |
| ModelGroupProofs.ShardGroupsNames | server/services/model_group_service.ts:56-67 | A shard's groups have pairwise different names, and these are exactly the names under which they are filed |
| ModelGroupProofs.ShardResultCorrect | server/services/model_group_service.ts:32-88 | For one shard, after filtering: there is one group per distinct model name, and none for other names; each group summarises its name's documents; the id total equals the number of unchunked documents |
| ModelGroupProofs.SearchIdCount | server/services/model_group_service.ts:83-90 | The ids of the whole result are exactly as many as the unchunked documents over all shards |
| ModelGroupProofs.SearchCorrect | server/services/model_group_service.ts:41-91 | Every result group summarises, for one shard, the unchunked documents of its name. Every name in every shard has such a group (so a name can appear once per shard). The ids add up to the unchunked document count. No shards gives an empty result |
| ModelGroupProofs.OnlyUnchunkedRecordsCounted | server/services/model_group_service.ts:32-39 | Every id in the result belongs to a document without a chunk number that has the group's name |
| ModelGroupProofs.MapStepExtends | server/services/model_group_service.ts:56-75 | One step keeps every existing group and key. It only appends ids, and it never lowers a group's latest time |
| ModelGroupProofs.FoldOnlyExtends | server/services/model_group_service.ts:56-75 | Documents folded later never reset a group: folding a longer shard that starts with the same documents keeps the group's key; the key order and the group's ids only grow at the end; its latest time never falls |
| ModelGroupProofs.TwoVersionExample | server/services/model_group_service.ts:45-90 | Two versions of one model, created at 100 (LOADED) and 200, give one group: latest version "2" at 200, ids in order, version "1" deployed and "2" undeployed |
| ConfirmDeleteModal.Show | public/components/model_list/model_confirm_delete_modal.tsx:78-81 | `show(id)` makes the modal visible with `id` pending and does not touch `isDeleting` |
| ConfirmDeleteModal.Cancel | public/components/model_list/model_confirm_delete_modal.tsx:70-73 | Cancel hides the modal and clears the pending ids; `isDeleting` stays as it was |
| ConfirmDeleteModal.ConfirmState | public/components/model_list/model_confirm_delete_modal.tsx:53-59 | Confirm changes nothing when no id is pending (it throws first). Otherwise it sets `isDeleting`; visibility and pending ids are unchanged either way |
| ConfirmDeleteModal.HandleConfirm | public/components/model_list/model_confirm_delete_modal.tsx:53-68 | It throws `NoIdProvideError` exactly when no id is pending (undefined or ""), issuing no delete and changing nothing. Otherwise it issues deletes for a prefix of the normalised ids, in order, with every call but the last succeeding. A failing delete ends the run with that id. Polling starts exactly when every id deleted, and then every id was issued |
| ConfirmDeleteModal.ContinueChecker | public/components/model_list/model_confirm_delete_modal.tsx:25-41 | The checker throws exactly when nothing is pending. Otherwise it searches the normalised ids (as confirm does) with page size = number of ids and page 1, and answers true exactly when the total equals the number of ids |
| ConfirmDeleteModal.GiveUp | public/components/model_list/model_confirm_delete_modal.tsx:42-46 | `onGiveUp` clears `isDeleting`, hides the modal, keeps the pending ids and calls `onDeleted` once |
| ConfirmDeleteModal.MaxRetries | public/components/model_list/model_confirm_delete_modal.tsx:47-50 | `onMaxRetries` clears `isDeleting`, hides the modal, keeps the pending ids and never calls `onDeleted` |
| ConfirmDeleteModal.PendingUntouched | public/components/model_list/model_confirm_delete_modal.tsx:42-59 | A run of confirm / give-up / max-retries events leaves the pending ids as they were |
| ConfirmDeleteModal.PendingFollowsLastShowOrCancel | public/components/model_list/model_confirm_delete_modal.tsx:70-81 | After any event sequence, the pending ids are those of the last `show`, or none if a cancel came last among shows and cancels |
| ConfirmDeleteModal.OnlyCancelClears | public/components/model_list/model_confirm_delete_modal.tsx:42-73 | If ids were pending and after some events none are, the events contained a cancel |
| ConfirmDeleteModal.OnDeletedOncePerGiveUp | public/components/model_list/model_confirm_delete_modal.tsx:42-50 | Over any event sequence, `onDeleted` is called exactly once per give-up, so never for max-retries |
| ConfirmDeleteModal.NothingPendingUntilShow | public/components/model_list/model_confirm_delete_modal.tsx:25-81 | With nothing pending, any events other than `show` leave nothing pending and never make the modal visible, so the checker throws after each of them |
| ConfirmDeleteModal.HiddenUntilFirstShow | public/components/model_list/model_confirm_delete_modal.tsx:19-81 | From mount until the first `show`, the modal stays hidden, nothing is pending and the checker throws |
| ConfirmDeleteModal.CancelWhileDeleting | public/components/model_list/model_confirm_delete_modal.tsx:25-73 | Confirming and then cancelling leaves `isDeleting` set with nothing pending; after any further events without a `show`, the checker throws |
| ConfirmDeleteModal.EmptyListIsPending | public/components/model_list/model_confirm_delete_modal.tsx:26-39 | An empty list counts as pending and normalises to no ids. The checker then queries page size 0 and answers true iff the total is 0. An empty string or no id is not pending |
| ApiProvider.EmptyStore | public/apis/api_provider.ts:20-27 | At module load all six slots are empty |
| ApiProvider.SetSlot | public/apis/api_provider.ts:41-70 | Writing one slot changes that slot only |
| ApiProvider.GetApi | public/apis/api_provider.ts:36-72 | On a filled slot, `getAPI(t)` returns the stored instance and leaves the store unchanged. On an empty slot, it constructs a new instance: its serial is the counter's value, which no earlier instance has, and the counter advances. The counter never goes back. Slot `t` holds the result afterwards; no other slot changes; the instance has type `t` and the store stays well formed |
| ApiProvider.Clear | public/apis/api_provider.ts:73-75 | `clear()` empties the `model` slot, keeps every other slot and leaves the instance counter alone, so no later instance can reuse an old serial |
| ApiProvider.GetApiIdempotent | public/apis/api_provider.ts:37-39 | A repeated `getAPI(t)` returns the same instance and leaves the store as it was |
| ApiProvider.ClearGivesFreshModel | public/apis/api_provider.ts:36-75 | After `clear()`, `getAPI('model')` returns a model client different from the one the store held |
| ApiProvider.SerialNeverDecreases | public/apis/api_provider.ts:36-75 | Over any sequence of calls the instance counter never goes back, so instances made later are never older ones |
| ApiProvider.ModelSlotStaysEmpty | public/apis/api_provider.ts:36-75 | An empty `model` slot stays empty through any calls other than `getAPI('model')` |
| ApiProvider.FreshAfterClearAnyCalls | public/apis/api_provider.ts:36-75 | After `clear()` and any calls other than `getAPI('model')`, the next `getAPI('model')` constructs a client newer than every instance the store held before the `clear()` |
| ApiProvider.FilledSlotStays | public/apis/api_provider.ts:36-75 | Over any sequence of calls, a filled slot keeps its instance, unless it is the `model` slot and a `clear()` is among the calls |
| ApiProvider.CallsKeepStoreValid | public/apis/api_provider.ts:13-72 | Whatever is called, every slot holds an instance of its own type that was made before the counter's current value |

## Left out

- The HTTP request to the search engine and the engine's transport are not modelled (server/services/model_group_service.ts:26-29,97). Neither is the router's ok/badRequest mapping. These are I/O. How the engine splits documents into shards is external, so shards are an input.
- `toEpochSecond()` is a foreign date API. A document's `created_time` is given as an optional integer of epoch seconds.
- A document lacking `name`, `model_version` or `model_state` would make the map script throw. The model's documents always carry these fields.
- The script's `HashMap.values()` has no specified iteration order. The model fixes it to first-insertion order of the names. Only these statements depend on that choice: the order of the groups within one shard's result; `ShardGroups`' positional ensures; the key-order clause of `FoldOnlyExtends`; and, through `Search`, the positions `ReduceConcatenates` gives. `ShardResultCorrect`, `SearchCorrect`, `OnlyUnchunkedRecordsCounted` and the id counts hold whatever the order.
- The polling hook `usePollingUntil` is not part of this model: its interval, retry loop, retry budget and unmount cancellation. Only its two terminal callbacks are modelled, as events. Which checker answer makes it continue or stop is not modelled.
- The delete and search requests are network calls. A delete's outcome is a parameter `deleteOk`, given the request's position in the id list and the id, so repeated ids can get different outcomes. A search's record total is a parameter `totalRecords`.
- React rendering is not modelled: `stopPropagation`, rendering gated on `visible`, `EuiConfirmModal`, the model table, the list page, toasts and route constants. Events are therefore accepted in any state, even while the modal is hidden.
- The refresh-interval component is not modelled: only its tests are present, and its behaviour is driven by timers and local storage.
- `ModelGroup.search` on the client is a typed GET wrapper. Its declared result type (public/apis/model_group.ts:11-18) is matched by `Group`, which also carries `latestCreatedTime`.
- The API client classes and their constructors are outside this model. An instance is only its type and a serial number.

=== FILE: api_provider.dfy ===
/**
 `APIProvider`: a process-wide memo table with one lazily filled slot per API
 client type. A slot is filled on first use and handed out from then on; `clear`
 empties the `model` slot only. Constructing a client is modelled by a counter
 that stamps every new instance with a serial number no earlier instance had.
 */
module ApiProvider {
  import opened Wrappers

  /** The keys of `apiInstanceStore`. */
  datatype ApiType = Model | Task | Train | ModelAlgorithm | Predict | ModelGroup

  /** A constructed client: its type and the serial number that tells it apart. */
  datatype Instance = Instance(kind: ApiType, serial: nat)

  /** The six slots of `apiInstanceStore`, and the serial the next new instance gets. */
  datatype Store = Store(
    model: Option<Instance>,
    task: Option<Instance>,
    train: Option<Instance>,
    modelAlgorithm: Option<Instance>,
    predict: Option<Instance>,
    modelGroup: Option<Instance>,
    nextSerial: nat)

  /** The store at module load: all six slots empty. */
  const Empty := Store(None, None, None, None, None, None, 0)

  function Slot(s: Store, t: ApiType): Option<Instance> {
    match t
    case Model => s.model
    case Task => s.task
    case Train => s.train
    case ModelAlgorithm => s.modelAlgorithm
    case Predict => s.predict
    case ModelGroup => s.modelGroup
  }

  function SetSlot(s: Store, t: ApiType, v: Option<Instance>): (s': Store)
    ensures Slot(s', t) == v
    ensures forall u :: u != t ==> Slot(s', u) == Slot(s, u)
    ensures s'.nextSerial == s.nextSerial
  {
    match t
    case Model => s.(model := v)
    case Task => s.(task := v)
    case Train => s.(train := v)
    case ModelAlgorithm => s.(modelAlgorithm := v)
    case Predict => s.(predict := v)
    case ModelGroup => s.(modelGroup := v)
  }

  /** Every slot holds an instance of its own type, made before the counter's
      current value. */
  ghost predicate Valid(s: Store) {
    forall t :: Slot(s, t).Some? ==> Slot(s, t).value.kind == t && Slot(s, t).value.serial < s.nextSerial
  }

  /** The module-load store is empty in every slot and well formed. */
  lemma EmptyStore()
    ensures forall t :: Slot(Empty, t).None?
    ensures Valid(Empty)
  {
  }

  /** `getAPI(t)`: the cached instance if slot `t` is filled; otherwise a new
      instance of type `t`, which is stored in slot `t`. Returns the new store and
      the instance handed out. */
  function GetApi(s: Store, t: ApiType): (r: (Store, Instance))
    ensures Valid(s) ==> r.1.kind == t
    ensures Slot(r.0, t) == Some(r.1)
    ensures Slot(s, t).Some? ==> r == (s, Slot(s, t).value)
    ensures Slot(s, t).None? && Valid(s) ==> forall u :: Slot(s, u) != Some(r.1)
    ensures Slot(s, t).None? ==> r.1.serial == s.nextSerial && r.0.nextSerial == s.nextSerial + 1
    ensures r.0.nextSerial >= s.nextSerial
    ensures forall u :: u != t ==> Slot(r.0, u) == Slot(s, u)
    ensures Valid(s) ==> Valid(r.0)
  {
    match Slot(s, t)
    case Some(inst) => (s, inst)
    case None =>
      var inst := Instance(t, s.nextSerial);
      (SetSlot(s, t, Some(inst)).(nextSerial := s.nextSerial + 1), inst)
  }

  /** `clear()`: forget the `model` instance and keep every other slot. */
  function Clear(s: Store): (s': Store)
    ensures Slot(s', Model).None?
    ensures forall u :: u != Model ==> Slot(s', u) == Slot(s, u)
    ensures s'.nextSerial == s.nextSerial
    ensures Valid(s) ==> Valid(s')
  {
    SetSlot(s, Model, None)
  }

  /** A second `getAPI(t)` hands out the same instance and changes nothing. */
  lemma GetApiIdempotent(s: Store, t: ApiType)
    ensures GetApi(GetApi(s, t).0, t) == (GetApi(s, t).0, GetApi(s, t).1)
  {
  }

  /** After `clear()`, the next `getAPI('model')` builds a new instance, different
      from the one the store held before. */
  lemma ClearGivesFreshModel(s: Store)
    requires Valid(s)
    requires Slot(s, Model).Some?
    ensures GetApi(Clear(s), Model).1 != Slot(s, Model).value
    ensures GetApi(Clear(s), Model).1.kind == Model
  {
  }

  /** One call on the provider. */
  datatype Call = GetApiCall(t: ApiType) | ClearCall

  function Apply(s: Store, c: Call): Store {
    match c
    case GetApiCall(t) => GetApi(s, t).0
    case ClearCall => Clear(s)
  }

  function ApplyAll(s: Store, cs: seq<Call>): Store
    decreases |cs|
  {
    if |cs| == 0 then s else ApplyAll(Apply(s, cs[0]), cs[1..])
  }

  /** The counter never goes back: every instance made later has a larger serial. */
  lemma {:induction false} SerialNeverDecreases(s: Store, cs: seq<Call>)
    ensures ApplyAll(s, cs).nextSerial >= s.nextSerial
    decreases |cs|
  {
    if |cs| > 0 {
      SerialNeverDecreases(Apply(s, cs[0]), cs[1..]);
    }
  }

  /** An empty `model` slot stays empty until `getAPI('model')` is called. */
  lemma {:induction false} ModelSlotStaysEmpty(s: Store, cs: seq<Call>)
    requires Slot(s, Model).None?
    requires forall k :: 0 <= k < |cs| ==> cs[k] != GetApiCall(Model)
    ensures Slot(ApplyAll(s, cs), Model).None?
    decreases |cs|
  {
    if |cs| > 0 {
      ModelSlotStaysEmpty(Apply(s, cs[0]), cs[1..]);
    }
  }

  /** However many other calls come between `clear()` and the next
      `getAPI('model')`, that call constructs a new model client: one whose serial
      no instance in the store before the `clear()` had. */
  lemma FreshAfterClearAnyCalls(s: Store, cs: seq<Call>)
    requires Valid(s)
    requires forall k :: 0 <= k < |cs| ==> cs[k] != GetApiCall(Model)
    ensures GetApi(ApplyAll(Clear(s), cs), Model).1.serial >= s.nextSerial
    ensures forall u :: Slot(s, u) != Some(GetApi(ApplyAll(Clear(s), cs), Model).1)
  {
    ModelSlotStaysEmpty(Clear(s), cs);
    SerialNeverDecreases(Clear(s), cs);
  }

  /** A filled slot keeps its instance whatever is called, except that `clear()`
      empties the `model` slot: no other slot is ever emptied or replaced. */
  lemma {:induction false} FilledSlotStays(s: Store, cs: seq<Call>, t: ApiType)
    requires Slot(s, t).Some?
    requires forall k :: 0 <= k < |cs| && cs[k].ClearCall? ==> t != Model
    ensures Slot(ApplyAll(s, cs), t) == Slot(s, t)
    decreases |cs|
  {
    if |cs| > 0 {
      FilledSlotStays(Apply(s, cs[0]), cs[1..], t);
    }
  }

  /** From module load, whatever is called, every slot holds an instance of its
      own type, and `getAPI(t)` therefore returns a client of type `t`. */
  lemma {:induction false} CallsKeepStoreValid(s: Store, cs: seq<Call>)
    requires Valid(s)
    ensures Valid(ApplyAll(s, cs))
    decreases |cs|
  {
    if |cs| > 0 {
      CallsKeepStoreValid(Apply(s, cs[0]), cs[1..]);
    }
  }
}

=== FILE: confirm_delete_modal.dfy ===
/**
 The delete-confirmation modal of the model list as a state machine. Its state is
 the two React state flags and the ref holding the ids to delete; the events are
 the imperative `show`, the cancel and confirm handlers, and the two terminal
 callbacks of the polling hook that waits for the deletion to show in the index.
 */
module ConfirmDeleteModal {
  import opened Wrappers

  /** What `show` accepts: one model id or a list of them. */
  datatype IdArg = Single(id: string) | List(ids: seq<string>)

  datatype ModalState = ModalState(visible: bool, isDeleting: bool, pending: Option<IdArg>)

  /** Hidden, not deleting, nothing pending: the state on mount. */
  const Initial := ModalState(false, false, None)

  /** JavaScript truthiness of the pending ref: `undefined` and the empty string are
      falsy, every array (the empty one included) is truthy. */
  predicate HasPending(p: Option<IdArg>) {
    match p
    case None => false
    case Some(Single(id)) => id != ""
    case Some(List(_)) => true
  }

  /** The normalisation the confirm handler and the checker share: a single id
      becomes a one-element list, a list is used as it is. */
  function Normalise(arg: IdArg): seq<string> {
    match arg
    case Single(id) => [id]
    case List(ids) => ids
  }

  /** The ids a pending value stands for, when it is truthy. */
  function PendingIds(p: Option<IdArg>): (ids: seq<string>)
    requires HasPending(p)
  {
    Normalise(p.value)
  }

  /** The imperative `show(id)`. */
  function Show(st: ModalState, arg: IdArg): (st': ModalState)
    ensures st'.visible && st'.pending == Some(arg)
    ensures st'.isDeleting == st.isDeleting
  {
    st.(visible := true, pending := Some(arg))
  }

  /** `handleCancel`. */
  function Cancel(st: ModalState): (st': ModalState)
    ensures !st'.visible && st'.pending.None?
    ensures st'.isDeleting == st.isDeleting
  {
    st.(visible := false, pending := None)
  }

  /** The state change of `handleConfirm`: it throws before touching anything when
      nothing is pending, and otherwise marks the modal as deleting. */
  function ConfirmState(st: ModalState): (st': ModalState)
    ensures !HasPending(st.pending) ==> st' == st
    ensures HasPending(st.pending) ==> st'.isDeleting
    ensures st'.visible == st.visible && st'.pending == st.pending
  {
    if HasPending(st.pending) then st.(isDeleting := true) else st
  }

  /** How `handleConfirm` ends. */
  datatype ConfirmOutcome =
    | NoIdProvided            // threw `NoIdProvideError`
    | DeleteFailed(id: string) // the delete of `id` rejected; the handler rejects with it
    | PollingStarted          // every delete succeeded and polling was started

  /** True iff every delete request for `ids`, one per list position, succeeds. */
  predicate AllDeleted(ids: seq<string>, deleteOk: (nat, string) -> bool) {
    forall k :: 0 <= k < |ids| ==> deleteOk(k, ids[k])
  }

  /** `handleConfirm`: delete the pending ids one by one, in order, stopping at the
      first delete that fails, and start polling only when all of them succeeded.
      `deleteOk(k, id)` is whether the `k`-th delete request, the one for `id`,
      succeeds; a list that repeats an id sends one request per occurrence. */
  method HandleConfirm(st: ModalState, deleteOk: (nat, string) -> bool)
    returns (st': ModalState, issued: seq<string>, outcome: ConfirmOutcome)
    ensures outcome == NoIdProvided <==> !HasPending(st.pending)
    ensures outcome == NoIdProvided ==> st' == st && issued == []
    ensures st' == ConfirmState(st)
    ensures HasPending(st.pending) ==> issued <= PendingIds(st.pending)
    ensures |issued| > 0 ==> AllDeleted(issued[..|issued| - 1], deleteOk)
    ensures outcome == PollingStarted <==> HasPending(st.pending) && AllDeleted(PendingIds(st.pending), deleteOk)
    ensures outcome == PollingStarted ==> issued == PendingIds(st.pending)
    ensures outcome.DeleteFailed? ==>
      |issued| > 0 && issued[|issued| - 1] == outcome.id && !deleteOk(|issued| - 1, outcome.id)
  {
    if !HasPending(st.pending) {
      return st, [], NoIdProvided;
    }
    st' := st.(isDeleting := true);
    var ids := Normalise(st.pending.value);
    issued := [];
    var i := 0;
    while i < |ids|
      invariant 0 <= i <= |ids|
      invariant issued == ids[..i]
      invariant AllDeleted(issued, deleteOk)
    {
      issued := issued + [ids[i]];
      if !deleteOk(i, ids[i]) {
        assert issued[..|issued| - 1] == ids[..i];
        return st', issued, DeleteFailed(ids[i]);
      }
      i := i + 1;
    }
    assert issued == ids;
    outcome := PollingStarted;
  }

  /** The search the checker sends: the ids, one page as large as the id list. */
  datatype SearchQuery = SearchQuery(ids: seq<string>, pageSize: int, currentPage: int)

  datatype CheckResult =
    | CheckThrew                                  // `NoIdProvideError`
    | Checked(query: SearchQuery, answer: bool)

  /** The polling hook's `continueChecker`; `totalRecords` is what the search for
      `query` reports. The answer is true when the search still finds as many
      records as ids were deleted; what the hook does with it is not modelled. */
  function ContinueChecker(p: Option<IdArg>, totalRecords: int): (r: CheckResult)
    ensures r.CheckThrew? <==> !HasPending(p)
    ensures r.Checked? ==>
      && r.query == SearchQuery(PendingIds(p), |PendingIds(p)|, 1)
      && (r.answer <==> totalRecords == |r.query.ids|)
  {
    if !HasPending(p) then CheckThrew
    else
      var ids := Normalise(p.value);
      Checked(SearchQuery(ids, |ids|, 1), totalRecords == |ids|)
  }

  /** A state together with how often `onDeleted` was called. */
  datatype Reaction = Reaction(state: ModalState, onDeletedCalls: nat)

  /** The hook's `onGiveUp` callback. */
  function GiveUp(st: ModalState): (r: Reaction)
    ensures !r.state.isDeleting && !r.state.visible
    ensures r.state.pending == st.pending
    ensures r.onDeletedCalls == 1
  {
    Reaction(st.(isDeleting := false, visible := false), 1)
  }

  /** The hook's `onMaxRetries` callback. */
  function MaxRetries(st: ModalState): (r: Reaction)
    ensures !r.state.isDeleting && !r.state.visible
    ensures r.state.pending == st.pending
    ensures r.onDeletedCalls == 0
  {
    Reaction(st.(isDeleting := false, visible := false), 0)
  }

  datatype Event = ShowEvent(arg: IdArg) | CancelEvent | ConfirmEvent | GiveUpEvent | MaxRetriesEvent

  function Step(st: ModalState, e: Event): Reaction {
    match e
    case ShowEvent(arg) => Reaction(Show(st, arg), 0)
    case CancelEvent => Reaction(Cancel(st), 0)
    case ConfirmEvent => Reaction(ConfirmState(st), 0)
    case GiveUpEvent => GiveUp(st)
    case MaxRetriesEvent => MaxRetries(st)
  }

  /** Apply `es` in order, counting the `onDeleted` calls. */
  function Run(st: ModalState, es: seq<Event>): Reaction
    decreases |es|
  {
    if |es| == 0 then Reaction(st, 0)
    else
      var before := Run(st, es[..|es| - 1]);
      var last := Step(before.state, es[|es| - 1]);
      Reaction(last.state, before.onDeletedCalls + last.onDeletedCalls)
  }

  /** Whether an event writes the pending ref. */
  predicate TouchesPending(e: Event) {
    e.ShowEvent? || e.CancelEvent?
  }

  /** Number of give-up events in `es`. */
  function GiveUps(es: seq<Event>): nat {
    if |es| == 0 then 0 else GiveUps(es[..|es| - 1]) + (if es[|es| - 1].GiveUpEvent? then 1 else 0)
  }

  lemma RunSnoc(st: ModalState, es: seq<Event>, e: Event)
    ensures Run(st, es + [e]).state == Step(Run(st, es).state, e).state
    ensures Run(st, es + [e]).onDeletedCalls == Run(st, es).onDeletedCalls + Step(Run(st, es).state, e).onDeletedCalls
  {
    assert (es + [e])[..|es|] == es;
  }

  /** Events other than show and cancel never change the pending ids. */
  lemma {:induction false} PendingUntouched(st: ModalState, es: seq<Event>)
    requires forall k :: 0 <= k < |es| ==> !TouchesPending(es[k])
    ensures Run(st, es).state.pending == st.pending
  {
    if |es| > 0 {
      var p := es[..|es| - 1];
      assert es == p + [es[|es| - 1]];
      PendingUntouched(st, p);
      RunSnoc(st, p, es[|es| - 1]);
    }
  }

  /** The pending ids are those of the last show, or none if a cancel came after it:
      whatever happens after the last show or cancel leaves them alone. */
  lemma {:induction false} PendingFollowsLastShowOrCancel(st: ModalState, es: seq<Event>, k: int)
    requires 0 <= k < |es| && TouchesPending(es[k])
    requires forall j :: k < j < |es| ==> !TouchesPending(es[j])
    ensures Run(st, es).state.pending == (if es[k].ShowEvent? then Some(es[k].arg) else None)
  {
    var head := es[..k + 1];
    var tail := es[k + 1..];
    assert es == head + tail;
    assert head == es[..k] + [es[k]];
    RunSnoc(st, es[..k], es[k]);
    RunAppend(st, head, tail);
    PendingUntouched(Run(st, head).state, tail);
  }

  lemma {:induction false} RunAppend(st: ModalState, a: seq<Event>, b: seq<Event>)
    ensures Run(st, a + b).state == Run(Run(st, a).state, b).state
    ensures Run(st, a + b).onDeletedCalls == Run(st, a).onDeletedCalls + Run(Run(st, a).state, b).onDeletedCalls
  {
    if |b| == 0 {
      assert a + b == a;
    } else {
      var b' := b[..|b| - 1];
      assert a + b == (a + b') + [b[|b| - 1]];
      RunAppend(st, a, b');
      RunSnoc(st, a + b', b[|b| - 1]);
    }
  }

  /** Only a cancel clears pending ids: neither terminal callback does. */
  lemma {:induction false} OnlyCancelClears(st: ModalState, es: seq<Event>)
    requires st.pending.Some?
    requires Run(st, es).state.pending.None?
    ensures exists k :: 0 <= k < |es| && es[k].CancelEvent?
  {
    if forall k :: 0 <= k < |es| ==> !TouchesPending(es[k]) {
      PendingUntouched(st, es);
    } else {
      var k := LastTouch(es);
      PendingFollowsLastShowOrCancel(st, es, k);
    }
  }

  /** Index of the last show or cancel in `es`. */
  function LastTouch(es: seq<Event>): (k: int)
    requires exists k :: 0 <= k < |es| && TouchesPending(es[k])
    ensures 0 <= k < |es| && TouchesPending(es[k])
    ensures forall j :: k < j < |es| ==> !TouchesPending(es[j])
  {
    if TouchesPending(es[|es| - 1]) then |es| - 1
    else
      var p := es[..|es| - 1];
      assert exists k :: 0 <= k < |p| && TouchesPending(p[k]) by {
        var k :| 0 <= k < |es| && TouchesPending(es[k]);
        assert p[k] == es[k];
      }
      LastTouch(p)
  }

  /** `onDeleted` runs exactly once per give-up, and never for a max-retries. */
  lemma {:induction false} OnDeletedOncePerGiveUp(st: ModalState, es: seq<Event>)
    ensures Run(st, es).onDeletedCalls == GiveUps(es)
  {
    if |es| > 0 {
      OnDeletedOncePerGiveUp(st, es[..|es| - 1]);
    }
  }

  /** With nothing pending, no event but a show sets the ref again, so until the
      next show every check throws `NoIdProvideError`. */
  lemma {:induction false} NothingPendingUntilShow(st: ModalState, es: seq<Event>, totalRecords: int)
    requires st.pending.None?
    requires forall k :: 0 <= k < |es| ==> !es[k].ShowEvent?
    ensures Run(st, es).state.pending.None?
    ensures Run(st, es).state.visible ==> st.visible
    ensures ContinueChecker(Run(st, es).state.pending, totalRecords).CheckThrew?
  {
    if |es| > 0 {
      var p := es[..|es| - 1];
      assert es == p + [es[|es| - 1]];
      NothingPendingUntilShow(st, p, totalRecords);
      RunSnoc(st, p, es[|es| - 1]);
    }
  }

  /** From mount until the first `show`, the modal stays hidden, nothing is pending
      and every check throws. */
  lemma {:induction false} HiddenUntilFirstShow(es: seq<Event>, totalRecords: int)
    requires forall k :: 0 <= k < |es| ==> !es[k].ShowEvent?
    ensures !Run(Initial, es).state.visible && Run(Initial, es).state.pending.None?
    ensures ContinueChecker(Run(Initial, es).state.pending, totalRecords).CheckThrew?
  {
    NothingPendingUntilShow(Initial, es, totalRecords);
  }

  /** Cancelling while the deletes are being confirmed leaves the modal marked as
      deleting with nothing pending, and every check made before the next show throws. */
  lemma CancelWhileDeleting(st: ModalState, es: seq<Event>, totalRecords: int)
    requires HasPending(st.pending)
    requires forall k :: 0 <= k < |es| ==> !es[k].ShowEvent?
    ensures Run(st, [ConfirmEvent, CancelEvent]).state.isDeleting
    ensures ContinueChecker(Run(st, [ConfirmEvent, CancelEvent] + es).state.pending, totalRecords).CheckThrew?
  {
    assert [ConfirmEvent, CancelEvent][..1] == [ConfirmEvent];
    RunAppend(st, [ConfirmEvent, CancelEvent], es);
    NothingPendingUntilShow(Run(st, [ConfirmEvent, CancelEvent]).state, es, totalRecords);
  }

  /** An empty list is truthy: it is pending, confirms with no delete at all, and
      the checker answers true exactly when the search finds nothing. An empty
      string is falsy and throws. */
  lemma EmptyListIsPending(totalRecords: int)
    ensures HasPending(Some(List([]))) && PendingIds(Some(List([]))) == []
    ensures ContinueChecker(Some(List([])), totalRecords) == Checked(SearchQuery([], 0, 1), totalRecords == 0)
    ensures !HasPending(Some(Single(""))) && !HasPending(None)
  {
  }
}

=== FILE: model_group_fold.dfy ===
/**
 The model-group aggregation of `ModelGroupService.search`, written as the pure
 fold it is. The search engine runs a scripted metric: a query filter drops chunk
 documents, every shard folds its documents in order into a map keyed by model
 name (`map_script`), hands the map back unchanged (`combine_script`), and the
 coordinating node concatenates the groups of all shards (`reduce_script`).
 */
module ModelGroupFold {
  import opened Wrappers

  /** One stored model document, with the fields the scripts read. */
  datatype Record = Record(
    id: string,                 // the document `_id`
    name: string,               // `name.keyword`
    version: string,            // `model_version`
    createdTime: Option<int>,   // `created_time`, already converted to epoch seconds
    modelState: string,         // `model_state`
    chunkNumber: Option<int>)   // present only on the chunk documents of a model

  /** The documents one shard holds, in the order the shard visits them. */
  type Shard = seq<Record>

  datatype Stages = Stages(deployed: seq<string>, undeployed: seq<string>)

  /** One entry of the aggregation result: all versions sharing one model name. */
  datatype Group = Group(
    name: string,
    stages: Stages,
    latestCreatedTime: int,
    latestVersion: string,
    versionIds: seq<string>)

  /** A shard's `state.responses`: the name-keyed map together with the order
      in which its keys were first inserted. */
  datatype ShardState = ShardState(keys: seq<string>, groups: map<string, Group>)

  /** The model state that counts as deployed. */
  const Loaded := "LOADED"

  predicate IsChunk(r: Record) {
    r.chunkNumber.Some?
  }

  /** A document without `created_time` counts as created at time 0. */
  function CreatedSeconds(r: Record): int {
    match r.createdTime
    case Some(t) => t
    case None => 0
  }

  predicate IsDeployed(r: Record) {
    r.modelState == Loaded
  }

  /** The model names the documents of `s` carry. */
  function Names(s: seq<Record>): set<string> {
    if |s| == 0 then {} else Names(s[..|s| - 1]) + {s[|s| - 1].name}
  }

  /** The query's `must_not exists chunk_number` filter. */
  function Unchunked(s: seq<Record>): (r: seq<Record>)
    ensures |r| <= |s|
  {
    if |s| == 0 then []
    else
      var last := s[|s| - 1];
      Unchunked(s[..|s| - 1]) + (if IsChunk(last) then [] else [last])
  }

  /** The filtered documents are exactly the input's documents without a chunk number. */
  lemma {:induction false} UnchunkedMembers(s: seq<Record>)
    ensures forall x :: x in Unchunked(s) <==> x in s && !IsChunk(x)
  {
    if |s| > 0 {
      var last := s[|s| - 1];
      assert s == s[..|s| - 1] + [last];
      UnchunkedMembers(s[..|s| - 1]);
    }
  }

  /** Filtering one more document appends it unless it is a chunk. */
  lemma UnchunkedSnoc(s: seq<Record>, x: Record)
    ensures Unchunked(s + [x]) == Unchunked(s) + (if IsChunk(x) then [] else [x])
  {
    assert (s + [x])[..|s|] == s;
  }

  /** Filtering keeps shard order and multiplicity: it distributes over concatenation. */
  lemma {:induction false} UnchunkedAppend(a: seq<Record>, b: seq<Record>)
    ensures Unchunked(a + b) == Unchunked(a) + Unchunked(b)
  {
    if |b| == 0 {
      assert a + b == a;
    } else {
      var b', last := b[..|b| - 1], b[|b| - 1];
      assert b == b' + [last];
      assert a + b == (a + b') + [last];
      var kept := if IsChunk(last) then [] else [last];
      UnchunkedSnoc(a + b', last);
      UnchunkedSnoc(b', last);
      UnchunkedAppend(a, b');
      assert (Unchunked(a) + Unchunked(b')) + kept == Unchunked(a) + (Unchunked(b') + kept);
    }
  }

  /** The group the map script creates for the first document of a name. */
  function NewGroup(r: Record): Group {
    Group(r.name, Stages([], []), CreatedSeconds(r), r.version, [])
  }

  /** What the map script does to an existing group for one more document. */
  function AddRecord(g: Group, r: Record): Group {
    var t := CreatedSeconds(r);
    var withId := g.(versionIds := g.versionIds + [r.id]);
    var withLatest :=
      if withId.latestCreatedTime < t
      then withId.(latestCreatedTime := t, latestVersion := r.version)
      else withId;
    if IsDeployed(r)
    then withLatest.(stages := withLatest.stages.(deployed := withLatest.stages.deployed + [r.version]))
    else withLatest.(stages := withLatest.stages.(undeployed := withLatest.stages.undeployed + [r.version]))
  }

  /** No key occurs twice in `keys`. */
  ghost predicate Distinct(keys: seq<string>) {
    |keys| == 0 || (Distinct(keys[..|keys| - 1]) && keys[|keys| - 1] !in keys[..|keys| - 1])
  }

  /** Distinct keys differ position by position. */
  lemma {:induction false} DistinctAt(keys: seq<string>, i: int, j: int)
    requires Distinct(keys)
    requires 0 <= i < j < |keys|
    ensures keys[i] != keys[j]
  {
    var p := keys[..|keys| - 1];
    if j < |keys| - 1 {
      DistinctAt(p, i, j);
    } else {
      assert keys[i] == p[i];
    }
  }

  /** The shape `state.responses` keeps throughout: keys listed once each, exactly
      the keys of the map, and every group filed under its own name. */
  ghost predicate Valid(st: ShardState) {
    && Distinct(st.keys)
    && (forall k :: k in st.keys <==> k in st.groups)
    && (forall k :: k in st.groups ==> st.groups[k].name == k)
  }

  /** One run of `map_script` on one document: a name seen for the first time gets
      a new group, and then the document is added to its name's group. */
  function MapStep(st: ShardState, r: Record): ShardState {
    if r.name in st.groups
    then ShardState(st.keys, st.groups[r.name := AddRecord(st.groups[r.name], r)])
    else ShardState(st.keys + [r.name], st.groups[r.name := AddRecord(NewGroup(r), r)])
  }

  /** The shard's fold of `map_script` over its documents, starting from the
      empty map of `init_script`. */
  function FoldShard(s: Shard): (st: ShardState)
    ensures Valid(st)
    ensures st.groups.Keys == Names(s)
  {
    if |s| == 0 then ShardState([], map[])
    else
      var st' := FoldShard(s[..|s| - 1]);
      MapStepValid(st', s[|s| - 1]);
      MapStep(st', s[|s| - 1])
  }

  /** A map-script step keeps the shape of `state.responses` and adds the
      document's name to its keys. */
  lemma MapStepValid(st: ShardState, r: Record)
    requires Valid(st)
    ensures Valid(MapStep(st, r))
    ensures MapStep(st, r).groups.Keys == st.groups.Keys + {r.name}
  {
    var st' := MapStep(st, r);
    if r.name in st.groups {
      assert AddRecord(st.groups[r.name], r).name == r.name;
      assert st'.keys == st.keys;
    } else {
      assert AddRecord(NewGroup(r), r).name == r.name;
      assert st'.keys[..|st'.keys| - 1] == st.keys;
    }
  }

  /** `combine_script` hands `state.responses` on as it is; the reduce step reads
      its values, here in key-insertion order. */
  function ShardGroups(st: ShardState): (gs: seq<Group>)
    requires Valid(st)
    ensures |gs| == |st.keys|
    ensures forall i :: 0 <= i < |gs| ==> gs[i] == st.groups[st.keys[i]]
  {
    seq(|st.keys|, i requires 0 <= i < |st.keys| => st.groups[st.keys[i]])
  }

  /** Number of groups over all shards. */
  function TotalLength(parts: seq<seq<Group>>): nat {
    if |parts| == 0 then 0 else TotalLength(parts[..|parts| - 1]) + |parts[|parts| - 1]|
  }

  /** `reduce_script`: the groups of every shard, shard after shard. */
  function Reduce(parts: seq<seq<Group>>): (r: seq<Group>)
    ensures |r| == TotalLength(parts)
    ensures forall i, g :: 0 <= i < |parts| && g in parts[i] ==> g in r
    ensures forall g :: g in r ==> exists i :: 0 <= i < |parts| && g in parts[i]
  {
    if |parts| == 0 then []
    else
      var prefix := parts[..|parts| - 1];
      var r' := Reduce(prefix);
      assert forall i :: 0 <= i < |prefix| ==> parts[i] == prefix[i];
      r' + parts[|parts| - 1]
  }

  /** Group `k` of shard `i` sits in `r` right after the groups of the shards before it. */
  ghost predicate PlacedInOrder(parts: seq<seq<Group>>, r: seq<Group>, i: int, k: int)
    requires 0 <= i < |parts| && 0 <= k < |parts[i]|
  {
    TotalLength(parts[..i]) + k < |r| && r[TotalLength(parts[..i]) + k] == parts[i][k]
  }

  lemma {:induction false} ReduceAt(parts: seq<seq<Group>>, i: int, k: int)
    requires 0 <= i < |parts| && 0 <= k < |parts[i]|
    ensures PlacedInOrder(parts, Reduce(parts), i, k)
  {
    var prefix := parts[..|parts| - 1];
    var r' := Reduce(prefix);
    assert Reduce(parts) == r' + parts[|parts| - 1];
    if i < |parts| - 1 {
      assert parts[..i] == prefix[..i];
      assert parts[i] == prefix[i];
      ReduceAt(prefix, i, k);
    } else {
      assert parts[..i] == prefix;
    }
  }

  /** The reduce concatenates: every shard's groups appear in the result in their
      own order, after the groups of the shards before it. */
  lemma {:induction false} ReduceConcatenates(parts: seq<seq<Group>>)
    ensures forall i, k :: 0 <= i < |parts| && 0 <= k < |parts[i]| ==> PlacedInOrder(parts, Reduce(parts), i, k)
  {
    forall i, k | 0 <= i < |parts| && 0 <= k < |parts[i]| ensures PlacedInOrder(parts, Reduce(parts), i, k) {
      ReduceAt(parts, i, k);
    }
  }

  /** The groups one shard contributes: filter, fold, combine. */
  function ShardResult(s: Shard): seq<Group> {
    ShardGroups(FoldShard(Unchunked(s)))
  }

  /** What each shard hands to the reduce phase, shard after shard. */
  function ShardResults(shards: seq<Shard>): (parts: seq<seq<Group>>)
    ensures |parts| == |shards|
    ensures forall i :: 0 <= i < |shards| ==> parts[i] == ShardResult(shards[i])
  {
    seq(|shards|, i requires 0 <= i < |shards| => ShardResult(shards[i]))
  }

  /** The whole aggregation `modelGroups` over the shards of the index. */
  function Search(shards: seq<Shard>): seq<Group> {
    Reduce(ShardResults(shards))
  }
}

=== FILE: model_group_proofs.dfy ===
/**
 What the aggregation computes, stated independently of the fold: for every model
 name, the ids of its documents in order, the versions split by deployment, and
 the first document with the greatest creation time. The lemmas prove that the
 fold of `ModelGroupFold` produces exactly that, shard by shard and overall.
 */
module ModelGroupProofs {
  import opened Wrappers
  import opened ModelGroupFold

  /** The documents of `s` carrying model name `n`, in their original order. */
  function Named(s: seq<Record>, n: string): seq<Record> {
    if |s| == 0 then []
    else Named(s[..|s| - 1], n) + (if s[|s| - 1].name == n then [s[|s| - 1]] else [])
  }

  /** `Named` keeps exactly the documents with the name. */
  lemma {:induction false} NamedMembers(s: seq<Record>, n: string)
    ensures forall x :: x in Named(s, n) <==> x in s && x.name == n
  {
    if |s| > 0 {
      var p := s[..|s| - 1];
      assert s == p + [s[|s| - 1]];
      NamedMembers(p, n);
    }
  }

  /** The documents of `rs` whose deployment state is `deployed`, in order. */
  function WithDeployment(rs: seq<Record>, deployed: bool): seq<Record> {
    if |rs| == 0 then []
    else WithDeployment(rs[..|rs| - 1], deployed) + (if IsDeployed(rs[|rs| - 1]) == deployed then [rs[|rs| - 1]] else [])
  }

  /** The document ids of `rs`, position by position. */
  function Ids(rs: seq<Record>): seq<string> {
    seq(|rs|, i requires 0 <= i < |rs| => rs[i].id)
  }

  /** The version strings of `rs`, position by position. */
  function Versions(rs: seq<Record>): seq<string> {
    seq(|rs|, i requires 0 <= i < |rs| => rs[i].version)
  }

  /** `rs[i]` has the greatest creation time of `rs` and no earlier document has it. */
  ghost predicate IsLatest(rs: seq<Record>, i: int) {
    && 0 <= i < |rs|
    && (forall j :: 0 <= j < |rs| ==> CreatedSeconds(rs[j]) <= CreatedSeconds(rs[i]))
    && (forall j :: 0 <= j < i ==> CreatedSeconds(rs[j]) < CreatedSeconds(rs[i]))
  }

  /** `g` is the summary of the non-empty document list `rs` of model `n`. */
  ghost predicate Summarises(g: Group, n: string, rs: seq<Record>) {
    && |rs| > 0
    && g.name == n
    && g.versionIds == Ids(rs)
    && g.stages.deployed == Versions(WithDeployment(rs, true))
    && g.stages.undeployed == Versions(WithDeployment(rs, false))
    && exists i :: IsLatest(rs, i) && g.latestCreatedTime == CreatedSeconds(rs[i]) && g.latestVersion == rs[i].version
  }

  /** Sum of the lengths of the `versionIds` of `gs`. */
  function TotalIds(gs: seq<Group>): nat {
    if |gs| == 0 then 0 else TotalIds(gs[..|gs| - 1]) + |gs[|gs| - 1].versionIds|
  }

  /** Number of documents over all shards that pass the chunk filter. */
  function UnchunkedCount(shards: seq<Shard>): nat {
    if |shards| == 0 then 0 else UnchunkedCount(shards[..|shards| - 1]) + |Unchunked(shards[|shards| - 1])|
  }

  lemma IdsSnoc(rs: seq<Record>, r: Record)
    ensures Ids(rs + [r]) == Ids(rs) + [r.id]
    ensures Versions(rs + [r]) == Versions(rs) + [r.version]
  {
    assert forall i :: 0 <= i < |rs| ==> (rs + [r])[i] == rs[i];
  }

  lemma WithDeploymentSnoc(rs: seq<Record>, r: Record, b: bool)
    ensures WithDeployment(rs + [r], b) == WithDeployment(rs, b) + (if IsDeployed(r) == b then [r] else [])
  {
    assert (rs + [r])[..|rs|] == rs;
  }

  /** The group created for a name's first document summarises that document alone. */
  lemma FirstRecordSummarised(r: Record)
    ensures Summarises(AddRecord(NewGroup(r), r), r.name, [r])
  {
    assert IsLatest([r], 0);
    assert Ids([r]) == [r.id];
    assert Versions([r]) == [r.version];
    assert Versions([]) == [];
  }

  /** One more document of the same name keeps the group a summary of all of them. */
  lemma AddRecordSummarises(g: Group, n: string, rs: seq<Record>, r: Record)
    requires Summarises(g, n, rs)
    requires r.name == n
    ensures Summarises(AddRecord(g, r), n, rs + [r])
  {
    var g' := AddRecord(g, r);
    var rs' := rs + [r];
    IdsSnoc(rs, r);
    WithDeploymentSnoc(rs, r, true);
    WithDeploymentSnoc(rs, r, false);
    IdsSnoc(WithDeployment(rs, true), r);
    IdsSnoc(WithDeployment(rs, false), r);
    var i :| IsLatest(rs, i) && g.latestCreatedTime == CreatedSeconds(rs[i]) && g.latestVersion == rs[i].version;
    assert forall j :: 0 <= j < |rs| ==> rs'[j] == rs[j];
    if g.latestCreatedTime < CreatedSeconds(r) {
      assert IsLatest(rs', |rs|);
    } else {
      assert IsLatest(rs', i);
    }
  }

  lemma {:induction false} NoNameNoRecords(s: seq<Record>, n: string)
    requires n !in Names(s)
    ensures Named(s, n) == []
  {
    if |s| > 0 {
      NoNameNoRecords(s[..|s| - 1], n);
    }
  }

  lemma FoldShardSnoc(p: Shard, r: Record)
    ensures FoldShard(p + [r]) == MapStep(FoldShard(p), r)
  {
    assert (p + [r])[..|p|] == p;
  }

  /** The group a map-script step leaves under each name. */
  lemma MapStepGroups(st: ShardState, r: Record, n: string)
    requires n in MapStep(st, r).groups
    ensures n != r.name ==> n in st.groups && MapStep(st, r).groups[n] == st.groups[n]
    ensures n == r.name && n in st.groups ==> MapStep(st, r).groups[n] == AddRecord(st.groups[n], r)
    ensures n == r.name && n !in st.groups ==> MapStep(st, r).groups[n] == AddRecord(NewGroup(r), r)
  {
  }

  /** One map-script step, on the last document of `s`, keeps every group the
      summary of its name's documents. */
  lemma MapStepSummarises(st: ShardState, s: seq<Record>, n: string)
    requires |s| > 0
    requires n in MapStep(st, s[|s| - 1]).groups
    requires st.groups.Keys == Names(s[..|s| - 1])
    requires n in st.groups ==> Summarises(st.groups[n], n, Named(s[..|s| - 1], n))
    ensures Summarises(MapStep(st, s[|s| - 1]).groups[n], n, Named(s, n))
  {
    var p := s[..|s| - 1];
    var r := s[|s| - 1];
    MapStepGroups(st, r, n);
    if r.name != n {
      assert Named(s, n) == Named(p, n);
      assert MapStep(st, r).groups[n] == st.groups[n];
    } else if n in st.groups {
      assert Named(s, n) == Named(p, n) + [r];
      assert MapStep(st, r).groups[n] == AddRecord(st.groups[n], r);
      AddRecordSummarises(st.groups[n], n, Named(p, n), r);
    } else {
      NoNameNoRecords(p, n);
      assert Named(s, n) == [r];
      assert MapStep(st, r).groups[n] == AddRecord(NewGroup(r), r);
      FirstRecordSummarised(r);
    }
  }

  /** Within a shard, the group filed under `n` is the summary of exactly the
      documents named `n`, in shard order. */
  lemma {:induction false} FoldShardSummarises(s: Shard, n: string)
    requires n in FoldShard(s).groups
    ensures Summarises(FoldShard(s).groups[n], n, Named(s, n))
  {
    var p := s[..|s| - 1];
    if n in FoldShard(p).groups {
      FoldShardSummarises(p, n);
    }
    MapStepSummarises(FoldShard(p), s, n);
  }

  lemma {:induction false} DeploymentPartition(rs: seq<Record>)
    ensures |WithDeployment(rs, true)| + |WithDeployment(rs, false)| == |rs|
  {
    if |rs| > 0 {
      DeploymentPartition(rs[..|rs| - 1]);
    }
  }

  /** Every version of a group lands in exactly one of the two stages. */
  lemma StagesPartitionVersions(g: Group, n: string, rs: seq<Record>)
    requires Summarises(g, n, rs)
    ensures |g.stages.deployed| + |g.stages.undeployed| == |g.versionIds|
  {
    DeploymentPartition(rs);
  }

  lemma {:induction false} TotalIdsUpdate(gs: seq<Group>, j: int, g: Group)
    requires 0 <= j < |gs|
    ensures TotalIds(gs[j := g]) + |gs[j].versionIds| == TotalIds(gs) + |g.versionIds|
  {
    var gs' := gs[j := g];
    if j < |gs| - 1 {
      assert gs'[..|gs'| - 1] == gs[..|gs| - 1][j := g];
      TotalIdsUpdate(gs[..|gs| - 1], j, g);
    } else {
      assert gs'[..|gs'| - 1] == gs[..|gs| - 1];
    }
  }

  lemma TotalIdsSnoc(gs: seq<Group>, g: Group)
    ensures TotalIds(gs + [g]) == TotalIds(gs) + |g.versionIds|
  {
    assert (gs + [g])[..|gs|] == gs;
  }

  /** Replacing the group under an existing key replaces one position of the values. */
  lemma ShardGroupsReplace(st: ShardState, j: int, g: Group)
    requires Valid(st)
    requires 0 <= j < |st.keys|
    requires Valid(ShardState(st.keys, st.groups[st.keys[j] := g]))
    ensures ShardGroups(ShardState(st.keys, st.groups[st.keys[j] := g])) == ShardGroups(st)[j := g]
  {
    var gs := ShardGroups(ShardState(st.keys, st.groups[st.keys[j] := g]));
    forall i | 0 <= i < |st.keys| && i != j ensures gs[i] == ShardGroups(st)[i] {
      if i < j {
        DistinctAt(st.keys, i, j);
      } else {
        DistinctAt(st.keys, j, i);
      }
    }
  }

  /** Filing a group under a new key appends it to the values. */
  lemma ShardGroupsInsert(st: ShardState, g: Group)
    requires Valid(st)
    requires g.name !in st.groups
    requires Valid(ShardState(st.keys + [g.name], st.groups[g.name := g]))
    ensures ShardGroups(ShardState(st.keys + [g.name], st.groups[g.name := g])) == ShardGroups(st) + [g]
  {
    var st' := ShardState(st.keys + [g.name], st.groups[g.name := g]);
    var gs, hs := ShardGroups(st'), ShardGroups(st) + [g];
    forall i | 0 <= i < |gs| ensures gs[i] == hs[i] {
      if i < |st.keys| {
        assert st'.keys[i] == st.keys[i];
        assert st.keys[i] != g.name;
      } else {
        assert st'.keys[i] == g.name;
      }
    }
  }

  /** Growing the group under an existing key by one id adds one id overall. */
  lemma ReplaceAddsOneId(st: ShardState, j: int, g: Group)
    requires Valid(st)
    requires 0 <= j < |st.keys|
    requires Valid(ShardState(st.keys, st.groups[st.keys[j] := g]))
    requires |g.versionIds| == |st.groups[st.keys[j]].versionIds| + 1
    ensures TotalIds(ShardGroups(ShardState(st.keys, st.groups[st.keys[j] := g]))) == TotalIds(ShardGroups(st)) + 1
  {
    ShardGroupsReplace(st, j, g);
    TotalIdsUpdate(ShardGroups(st), j, g);
  }

  /** Filing a one-id group under a new key adds one id overall. */
  lemma InsertAddsOneId(st: ShardState, g: Group)
    requires Valid(st)
    requires g.name !in st.groups
    requires Valid(ShardState(st.keys + [g.name], st.groups[g.name := g]))
    requires |g.versionIds| == 1
    ensures TotalIds(ShardGroups(ShardState(st.keys + [g.name], st.groups[g.name := g]))) == TotalIds(ShardGroups(st)) + 1
  {
    ShardGroupsInsert(st, g);
    TotalIdsSnoc(ShardGroups(st), g);
  }

  /** One map-script step adds exactly one id over all the shard's groups. */
  lemma MapStepAddsOneId(st: ShardState, r: Record)
    requires Valid(st)
    ensures Valid(MapStep(st, r))
    ensures TotalIds(ShardGroups(MapStep(st, r))) == TotalIds(ShardGroups(st)) + 1
  {
    MapStepValid(st, r);
    if r.name in st.groups {
      assert r.name in st.keys;
      var j :| 0 <= j < |st.keys| && st.keys[j] == r.name;
      var g := AddRecord(st.groups[r.name], r);
      assert MapStep(st, r) == ShardState(st.keys, st.groups[st.keys[j] := g]);
      ReplaceAddsOneId(st, j, g);
    } else {
      var g := AddRecord(NewGroup(r), r);
      assert MapStep(st, r) == ShardState(st.keys + [g.name], st.groups[g.name := g]);
      InsertAddsOneId(st, g);
    }
  }

  /** Every document of a shard contributes exactly one id to exactly one group. */
  lemma {:induction false} ShardIdCount(s: Shard)
    ensures TotalIds(ShardGroups(FoldShard(s))) == |s|
  {
    if |s| > 0 {
      var p := s[..|s| - 1];
      var r := s[|s| - 1];
      assert s == p + [r];
      FoldShardSnoc(p, r);
      ShardIdCount(p);
      MapStepAddsOneId(FoldShard(p), r);
    }
  }

  /** The values of a well-formed shard state carry pairwise different names,
      exactly the names under which they are filed. */
  lemma ShardGroupsNames(st: ShardState)
    requires Valid(st)
    ensures forall i, j :: 0 <= i < j < |ShardGroups(st)| ==> ShardGroups(st)[i].name != ShardGroups(st)[j].name
    ensures forall n :: n in st.groups <==> exists i :: 0 <= i < |ShardGroups(st)| && ShardGroups(st)[i].name == n
  {
    var gs := ShardGroups(st);
    forall i, j | 0 <= i < j < |gs| ensures gs[i].name != gs[j].name {
      DistinctAt(st.keys, i, j);
    }
    forall n ensures n in st.groups <==> exists i :: 0 <= i < |gs| && gs[i].name == n {
      if n in st.groups {
        var i :| 0 <= i < |st.keys| && st.keys[i] == n;
        assert gs[i].name == n;
      }
    }
  }

  /** The groups one shard returns: one per distinct name, each a summary of that
      name's documents, and the total of their ids is the shard's document count. */
  lemma ShardResultCorrect(s: Shard)
    ensures forall i, j :: 0 <= i < j < |ShardResult(s)| ==> ShardResult(s)[i].name != ShardResult(s)[j].name
    ensures forall n :: n in Names(Unchunked(s)) <==> exists i :: 0 <= i < |ShardResult(s)| && ShardResult(s)[i].name == n
    ensures forall g :: g in ShardResult(s) ==> Summarises(g, g.name, Named(Unchunked(s), g.name))
    ensures TotalIds(ShardResult(s)) == |Unchunked(s)|
  {
    ShardGroupsNames(FoldShard(Unchunked(s)));
    ShardResultSummaries(s);
    ShardIdCount(Unchunked(s));
  }

  /** Every group one shard returns summarises that name's unchunked documents. */
  lemma ShardResultSummaries(s: Shard)
    ensures forall g :: g in ShardResult(s) ==> Summarises(g, g.name, Named(Unchunked(s), g.name))
  {
    var u := Unchunked(s);
    var st := FoldShard(u);
    var gs := ShardGroups(st);
    forall g | g in gs ensures Summarises(g, g.name, Named(u, g.name)) {
      var i :| 0 <= i < |gs| && gs[i] == g;
      assert g == st.groups[st.keys[i]];
      FoldShardSummarises(u, g.name);
    }
  }

  lemma {:induction false} TotalIdsConcat(a: seq<Group>, b: seq<Group>)
    ensures TotalIds(a + b) == TotalIds(a) + TotalIds(b)
  {
    if |b| > 0 {
      var b' := b[..|b| - 1];
      assert (a + b)[..|a + b| - 1] == a + b';
      TotalIdsConcat(a, b');
    } else {
      assert a + b == a;
    }
  }

  lemma {:induction false} SearchIdCount(shards: seq<Shard>)
    ensures TotalIds(Search(shards)) == UnchunkedCount(shards)
  {
    if |shards| > 0 {
      var p := shards[..|shards| - 1];
      assert ShardResults(shards)[..|shards| - 1] == ShardResults(p);
      SearchIdCount(p);
      TotalIdsConcat(Search(p), ShardResult(shards[|shards| - 1]));
      ShardResultCorrect(shards[|shards| - 1]);
    }
  }

  /** The whole aggregation: every returned group summarises, for one shard, the
      unchunked documents of its name; every name of every shard has such a group;
      the ids add up to the number of unchunked documents; no shards, no groups. */
  lemma SearchCorrect(shards: seq<Shard>)
    ensures forall g :: g in Search(shards) ==>
      exists i :: 0 <= i < |shards| && Summarises(g, g.name, Named(Unchunked(shards[i]), g.name))
    ensures forall i, n :: 0 <= i < |shards| && n in Names(Unchunked(shards[i])) ==>
      exists g :: g in Search(shards) && g.name == n && Summarises(g, n, Named(Unchunked(shards[i]), n))
    ensures TotalIds(Search(shards)) == UnchunkedCount(shards)
    ensures shards == [] ==> Search(shards) == []
  {
    var parts: seq<seq<Group>> := ShardResults(shards);
    forall g | g in Search(shards)
      ensures exists i :: 0 <= i < |shards| && Summarises(g, g.name, Named(Unchunked(shards[i]), g.name))
    {
      var i :| 0 <= i < |parts| && g in parts[i];
      ShardResultCorrect(shards[i]);
    }
    forall i: int, n: string | 0 <= i < |shards| && n in Names(Unchunked(shards[i]))
      ensures exists g :: g in Search(shards) && g.name == n && Summarises(g, n, Named(Unchunked(shards[i]), n))
    {
      ShardResultCorrect(shards[i]);
      var k: int :| 0 <= k < |parts[i]| && parts[i][k].name == n;
      assert parts[i][k] in parts[i];
    }
    SearchIdCount(shards);
  }

  /** The ids of a group summarising a shard's unchunked documents of one name
      come from such documents: here is the one behind position `k`. */
  lemma SummarisedIdsUnchunked(s: Shard, g: Group, k: int) returns (x: Record)
    requires Summarises(g, g.name, Named(Unchunked(s), g.name))
    requires 0 <= k < |g.versionIds|
    ensures x in s && !IsChunk(x) && x.name == g.name && x.id == g.versionIds[k]
  {
    var rs := Named(Unchunked(s), g.name);
    NamedMembers(Unchunked(s), g.name);
    UnchunkedMembers(s);
    x := rs[k];
    assert x in rs;
    assert x.id == Ids(rs)[k];
  }

  /** Some shard holds an unchunked document of model `n` with id `id`. */
  ghost predicate IdFromUnchunked(shards: seq<Shard>, n: string, id: string) {
    exists i, x :: 0 <= i < |shards| && x in shards[i] && !IsChunk(x) && x.name == n && x.id == id
  }

  /** Only documents without a chunk number reach a group: every id in the result
      belongs to an unchunked document of some shard, with the group's name. */
  lemma OnlyUnchunkedRecordsCounted(shards: seq<Shard>)
    ensures forall g, k :: g in Search(shards) && 0 <= k < |g.versionIds| ==> IdFromUnchunked(shards, g.name, g.versionIds[k])
  {
    forall g, k | g in Search(shards) && 0 <= k < |g.versionIds|
      ensures IdFromUnchunked(shards, g.name, g.versionIds[k])
    {
      SearchCorrect(shards);
      var i :| 0 <= i < |shards| && Summarises(g, g.name, Named(Unchunked(shards[i]), g.name));
      var x := SummarisedIdsUnchunked(shards[i], g, k);
      assert 0 <= i < |shards| && x in shards[i] && !IsChunk(x) && x.name == g.name && x.id == g.versionIds[k];
    }
  }

  /** One map-script step keeps every existing group and key, only appending. */
  lemma MapStepExtends(st: ShardState, r: Record, n: string)
    requires n in st.groups
    ensures n in MapStep(st, r).groups
    ensures st.keys <= MapStep(st, r).keys
    ensures st.groups[n].versionIds <= MapStep(st, r).groups[n].versionIds
    ensures st.groups[n].latestCreatedTime <= MapStep(st, r).groups[n].latestCreatedTime
  {
  }

  /** Later documents never reset a group: folding a longer shard `u` that starts
      with `s` keeps the group, its ids only grow at the end, its latest time never
      falls, and the shard's key order only grows at the end. */
  lemma {:induction false} FoldOnlyExtends(s: Shard, u: Shard, n: string)
    requires s <= u
    requires n in Names(s)
    ensures n in FoldShard(u).groups
    ensures FoldShard(s).keys <= FoldShard(u).keys
    ensures FoldShard(s).groups[n].versionIds <= FoldShard(u).groups[n].versionIds
    ensures FoldShard(s).groups[n].latestCreatedTime <= FoldShard(u).groups[n].latestCreatedTime
    decreases |u|
  {
    if |u| == |s| {
      assert u == s;
    } else {
      var u' := u[..|u| - 1];
      assert s <= u';
      FoldOnlyExtends(s, u', n);
      MapStepExtends(FoldShard(u'), u[|u| - 1], n);
    }
  }

  /** Two versions of model "a", created at 100 and 200, the first deployed. */
  lemma TwoVersionExample()
    ensures
      var v1 := Record("v1", "a", "1", Some(100), Loaded, None);
      var v2 := Record("v2", "a", "2", Some(200), "UNLOADED", None);
      Search([[v1, v2]]) == [Group("a", Stages(["1"], ["2"]), 200, "2", ["v1", "v2"])]
  {
    var v1 := Record("v1", "a", "1", Some(100), Loaded, None);
    var v2 := Record("v2", "a", "2", Some(200), "UNLOADED", None);
    assert [v1, v2] == [v1] + [v2];
    assert [v1] == [] + [v1];
    assert Unchunked([v1, v2]) == [v1, v2];
    FoldShardSnoc([], v1);
    FoldShardSnoc([v1], v2);
    var g1 := Group("a", Stages(["1"], []), 100, "1", ["v1"]);
    assert FoldShard([]) == ShardState([], map[]);
    assert AddRecord(NewGroup(v1), v1) == g1;
    assert FoldShard([v1]) == ShardState(["a"], map["a" := g1]);
    var g2 := Group("a", Stages(["1"], ["2"]), 200, "2", ["v1", "v2"]);
    assert !IsDeployed(v2);
    assert AddRecord(g1, v2) == g2;
    assert FoldShard([v1, v2]) == ShardState(["a"], map["a" := g2]);
    assert ShardResult([v1, v2]) == [g2];
    assert ShardResults([[v1, v2]]) == [[g2]];
  }
}

=== FILE: wrappers.dfy ===
/** Optional values: a JavaScript `undefined` or a document field that may be absent. */
module Wrappers {

  datatype Option<+T> = None | Some(value: T)
}
